=== FILE: README.md ===
# Essay grading: client lifecycle and grading arithmetic in Dafny

This project models the two pieces of the AI essay-grading application that carry
real logic, and proves properties of them.

- **The browser client** (`App.js`). It holds the essay, the essay type and a
  five-field grading-parameter record. `handleParamChange` replaces one field of that
  record, parsing the input as a float when the field's name contains `weight` and as an
  integer otherwise. `handleSubmit` raises the "grading" overlay, posts the essay, the
  type and the parameters, and then either replaces the result or keeps the old one;
  either way it clears the overlay. The result view shows each score panel unless the
  score is `null`, and shows the detailed-error list only when it is present and non-empty.
- **The grading endpoint** (`backapp.py`). `advanced_grade_essay` classifies the
  opcodes of a character diff between the essay and its corrected version as spelling,
  grammar and punctuation errors. From these it derives an error rate per word, a banded
  grammar score and a weight-normalised final score. It also builds the feedback lines
  and the `detailed_errors` list. `grade_essay` uses the parameters the request supplies,
  or the built-in profile for the essay type, falling back to `medium`.

Modules, one per component:

| file | module | models |
|---|---|---|
| `wrappers.dfy` | `Wrappers` | `Option` (Python `None`, JS `null`) and `Result` (a raised error) |
| `text.dfy` | `Text` | Python `str.split()`, `str.lower()`, `str(n)`, `format(x, ".2f")`; JavaScript `includes` |
| `params.dfy` | `Params` | the `GradingParams` record, its five fields, and the name-driven parse of `handleParamChange` |
| `grading.dfy` | `Grading` | `advanced_grade_essay`, `default_grading_parameters` and the parameter choice of `grade_essay` |
| `wire.dfy` | `Wire` | the JSON response as the client reads it; a key may be missing, `null` or present |
| `client.dfy` | `Client` | the component state, the parameter edit, the submit lifecycle, the view conditions, event traces |
| `endtoend.dfy` | `EndToEnd` | a client request carried through the endpoint and back into the view |

Numbers are Dafny `real`, which is exact rational arithmetic. This is a deliberate
idealisation of JavaScript and Python floats. The things the code calls but cannot be
read as logic are parameters of the model:

- the `SequenceMatcher` opcodes, given as a list;
- the corrected text produced by the language model;
- the punctuation regex test, given as the predicate `startsWithPunct`;
- the vocabulary and creativity scores, given as values;
- JavaScript's `parseFloat` and `parseInt`, given as the functions of `Parsers`.

## Model

| member | source | states |
|---|---|---|
| `Client.Initial` | aigd/essay-grading-ui/src/App.js:5-16 | at mount the essay is empty, the type is `medium`, nothing is shown, the overlay is down, the button is enabled, and the weights sum to 1 over a non-empty word range |
| `EndToEnd.InitialParamsAreMediumProfile` | aigd/essay-grading-ui/src/App.js:9-15 | the client's starting parameters are exactly the server's `medium` profile, which is also what an unknown type falls back to |
| `Params.WeightNameIffWeightField` | aigd/essay-grading-ui/src/App.js:22 | an input name contains `weight` exactly for the three weight fields |
| `Text.ContainsIffOccurs` | aigd/essay-grading-ui/src/App.js:22 | `includes` holds exactly when the substring occurs at some index |
| `Params.UpdateParam` | aigd/essay-grading-ui/src/App.js:18-24 | the named field gets `parseFloat(raw)` if it is a weight and `parseInt(raw)` otherwise; the other four fields are unchanged |
| `Client.HandleParamChange` | aigd/essay-grading-ui/src/App.js:18-24 | the same edit seen on the whole state: only the parameter record changes |
| `Client.BeginSubmit` | aigd/essay-grading-ui/src/App.js:26-35 | before the request is awaited the overlay is up, nothing else has changed, and the request carries the current essay, type and parameters |
| `Client.Settle` | aigd/essay-grading-ui/src/App.js:36-41 | on success the result becomes the response; on failure the old result stays; the overlay is down in both cases; nothing else changes |
| `Client.Submit` | aigd/essay-grading-ui/src/App.js:26-42 | a whole submission never leaves the overlay up, and shows the response on success |
| `Client.Step` | aigd/essay-grading-ui/src/App.js:18-41 | one event's effect: only a submit or a settlement moves the overlay (up for a submit, down for a settlement), only a successful settlement replaces the result, a submit or a settlement changes nothing but the overlay and the result, editing the essay or choosing a type sets just that field, editing a parameter applies `Params.UpdateParam` to the parameters and changes nothing else, and `loading` never changes |
| `Client.Run` | aigd/essay-grading-ui/src/App.js:7 | however many events happen, `loading` keeps its value |
| `Client.RunConcat` | aigd/essay-grading-ui/src/App.js:18-41 | running two event traces one after the other is the same as running their concatenation |
| `Client.SubmitNeverDisabled` | aigd/essay-grading-ui/src/App.js:142 | in every run from mount, the button's `disabled={loading}` stays false, because `loading` is never set |
| `Client.LastSuccessWins` | aigd/essay-grading-ui/src/App.js:36 | with overlapping submissions the shown result is the data of the last successful settlement |
| `Client.NoSuccessKeepsResult` | aigd/essay-grading-ui/src/App.js:37-38 | a run with no successful settlement keeps the result that was shown before it |
| `Client.SpinnerFollowsLastLifecycleEvent` | aigd/essay-grading-ui/src/App.js:28-41 | the overlay is up exactly when the last submit or settle event was a submit |
| `Client.OverlapClearsSpinnerEarly` | aigd/essay-grading-ui/src/App.js:39-41 | two overlapping submits: the first settlement clears the overlay while the second request is still pending |
| `Client.ShowsResult` | aigd/essay-grading-ui/src/App.js:149 | the result block is rendered exactly when a result is held; the initial `null` hides it |
| `Client.ResultShownIffSomeSuccess` | aigd/essay-grading-ui/src/App.js:6-41 | from mount, the result block is shown exactly when some request in the trace has settled successfully |
| `Client.ShowsScorePanel` | aigd/essay-grading-ui/src/App.js:158-175 | a score panel is hidden only by an explicit `null`; a missing key or a number shows it |
| `Client.ShowsDetailedErrors` | aigd/essay-grading-ui/src/App.js:211 | the error list is shown only when the key holds a list, and then exactly when the list is non-empty |
| `EndToEnd.SubmitAgainstServer` | aigd/essay-grading-ui/src/App.js:26-42 | a submission answered by the endpoint: a blank essay keeps the old result; otherwise the result block is shown, each score panel appears exactly when its weight is positive, and the error list appears exactly when the diff has a change |
| `EndToEnd.NullScoreAndEmptyErrorsHidden` | aigd/essay-grading-ui/src/App.js:149-229 | a success with a `null` vocabulary score and an empty error list shows the result, hides the vocabulary panel and the error section, and keeps the one feedback line |
| `EndToEnd.Respond` | aigd/backend/backapp.py:233-251 | the endpoint answers a client request with a failure exactly when the essay has no words |
| `EndToEnd.EssayTypeIgnored` | aigd/backend/backapp.py:238-246 | since the client always sends parameters, the essay type it sends never changes the answer |
| `Text.Words` | aigd/backend/backapp.py:71 | `split()` yields non-empty runs without whitespace, and none exactly when the text is blank |
| `Text.WordsOfWord` | aigd/backend/backapp.py:71 | a single run of non-whitespace characters splits into exactly itself |
| `Text.WordsAfterBlank` | aigd/backend/backapp.py:71 | whitespace in front of a text adds no words |
| `Text.WordsSplitAtSpace` | aigd/backend/backapp.py:71 | the words of `a`, any whitespace character, then `b` are the words of `a` followed by the words of `b`; with the single-word and blank cases this fixes `split()` on every text |
| `Text.LowerKeepsWordCount` | aigd/backend/backapp.py:71-74 | splitting the lower-cased essay gives as many words as splitting the essay, so `total_words` equals the `word_count` of line 132 |
| `Grading.Slice` | aigd/backend/backapp.py:98-99 | Python slicing clamps both ends, so every opcode yields a slice and in-range bounds give the exact substring, an end past the text gives the rest of it, and a start past the text gives nothing |
| `Grading.Classify` | aigd/backend/backapp.py:95 | a span is Spelling exactly when it is a one-for-one replacement, and a changed span is never Punctuation |
| `Grading.IsPunctuationError` | aigd/backend/backapp.py:88 | a punctuation error is an insertion or deletion, so it is a changed span and never a spelling error |
| `Grading.PunctuationCount` | aigd/backend/backapp.py:86-88 | the punctuation and spelling counts together never exceed the number of changed spans |
| `Grading.DetailedErrors` | aigd/backend/backapp.py:92-100 | one entry per non-`equal` opcode, in opcode order, each with its kind and both slices; every kind is Spelling or Grammar |
| `Grading.SpellingEntriesCountSpellingErrors` | aigd/backend/backapp.py:86-100 | the number of Spelling entries equals `spelling_errors` |
| `Grading.GrammarEntriesExceedGrammarErrors` | aigd/backend/backapp.py:87-95 | for well-shaped opcodes, the Grammar entries are `grammar_errors` plus the one-character insertions and deletions |
| `Grading.ErrorRate` | aigd/backend/backapp.py:91 | the error rate is errors per word: non-negative, zero exactly when there are no counted errors |
| `Grading.GrammarScore` | aigd/backend/backapp.py:103-112 | the score lies in [0, 10]; it is 10 up to rate 0.02, 9 on (0.02, 0.05], 8 on (0.05, 0.1], 7 on (0.1, 0.15], `6 - (rate - 0.15) * 20` on (0.15, 0.45), and 0 exactly from 0.45 |
| `Grading.GrammarScoreNonIncreasing` | aigd/backend/backapp.py:103-112 | a higher error rate never gives a higher grammar score |
| `Grading.WeightedAverageBetween` | aigd/backend/backapp.py:125-128 | with non-negative weights of positive sum, the normalised average lies between the smallest and largest sub-score |
| `Grading.FinalScoreAsWritten` | aigd/backend/backapp.py:121-129 | the source's final score: 0 when the weights sum to 0, otherwise ten times the sum of each sub-score times its own weight, divided by the weight sum |
| `Grading.FinalScoreAsWrittenLeavesScale` | aigd/backend/backapp.py:125-129 | as written, three perfect sub-scores under the medium weights give a final score of 100 |
| `Grading.FinalScore` | aigd/backend/backapp.py:121-129 | the corrected final score: 0 when the weights sum to 0, otherwise the grammar, vocabulary and creativity scores each times its own weight, summed and divided by the weight sum; it lies between the smallest and largest sub-score and is one tenth of the as-written score |
| `Grading.FinalScoreOnScale` | aigd/backend/backapp.py:121-129 | with non-negative weights of positive sum and sub-scores in [0, 10], the corrected final score is in [0, 10] |
| `Grading.BuildFeedback` | aigd/backend/backapp.py:131-148 | the word-count line, carrying the count and both bounds, comes first exactly when the count is out of range; the three count lines follow; then a score line for each positive weight and no other line; the lines are in the order grammar, vocabulary, creativity |
| `Grading.OpeningLines` | aigd/backend/backapp.py:131-140 | the lines before the score lines: the word-count warning with the count and both bounds exactly when the count is out of range, then the spelling, grammar and punctuation counts |
| `Grading.Message` | aigd/backend/backapp.py:133-148 | every line opens with its fixed words; a count line ends in its count in decimal, and a score line ends in its own score rendered with two decimals followed by `/10` |
| `Grading.MessagesTellKindsApart` | aigd/backend/backapp.py:133-148 | lines of different kinds never have the same text |
| `Text.NatToString` | aigd/backend/backapp.py:134-140 | `str(n)` of a count is a non-empty string of decimal digits |
| `Text.NatToStringValue` | aigd/backend/backapp.py:134-140 | reading the digits of `str(n)` back as a decimal number gives `n`, so the rendering names the count itself |
| `Text.Fixed2` | aigd/backend/backapp.py:144-148 | a `.2f` rendering ends in a point followed by two decimal digits |
| `Grading.AdvancedGrade` | aigd/backend/backapp.py:70-161 | the grading raises exactly when the essay has no words, and otherwise returns the report of `Grade` |
| `Grading.Grade` | aigd/backend/backapp.py:70-161 | the report echoes both texts, counts the words, has a non-negative error rate and one detailed error per change, and nulls each sub-score exactly when its weight is at most 0; its feedback carries the three counts and leads with the word-count line exactly when the count is out of range; its score is the corrected one of `Grading.FinalScore` (one tenth of the source's), so it is 0 for zero total weight and in [0, 10] for non-negative weights and sub-scores in [0, 10] |
| `Grading.ReportFollowsErrorRate` | aigd/backend/backapp.py:91-160 | the reported error rate is 100 times the errors-per-word rate; the grammar score (when reported) and the final score are both computed from that same rate; the source's as-written score is ten times the reported one |
| `Grading.ReportListsEveryChange` | aigd/backend/backapp.py:92-100 | the report's `detailed_errors` are exactly the entries of the diff's changed spans, in opcode order, each with its kind and both slices |
| `Grading.ReportFeedbackIsBuilt` | aigd/backend/backapp.py:131-148 | the report's `feedback` is the list built from the essay's word count, the three error counts, the grammar score of the error rate and the other two sub-scores, so its order, its word-count numbers and its score lines (present exactly when their weight is positive) are those `BuildFeedback` promises |
| `Grading.ReportSpellingConsistent` | aigd/backend/backapp.py:86-141 | the spelling count in the feedback equals the number of Spelling entries in the same report |
| `Grading.DefaultProfilesAreConsistent` | aigd/backend/backapp.py:43-68 | each built-in profile has non-negative weights summing to 1 and a non-empty word range, and the ranges join short to medium to long |
| `Grading.SelectParams` | aigd/backend/backapp.py:238-248 | supplied parameters are used as given; otherwise the profile for the type, or `medium` for an unknown type |
| `Grading.UnknownTypeGradedAsMedium` | aigd/backend/backapp.py:248 | without supplied parameters, an unknown essay type is graded exactly like `medium` |
| `Grading.GradeEssay` | aigd/backend/backapp.py:233-251 | the endpoint fails exactly on a blank essay, and with supplied parameters grades with exactly those |
| `Wire.EncodeScore` | aigd/backend/backapp.py:153-155 | a `None` sub-score is sent as `null`, a present one as its value, and the key is never missing |
| `Wire.Encode` | aigd/backend/backapp.py:150-161 | the response has every key; the scores are `null` exactly where the report has `None`; the feedback is the rendered lines in order; the error list is present, one entry per report entry with the same kind and the same original and corrected text |

## Left out

- Network I/O. The axios POST, the FastAPI routing, the CORS setup and the `nltk.download` calls are not modelled. A request's answer is the `Outcome` parameter of `Client.Settle`, or `EndToEnd.Respond`. A thrown request (a transport failure or an error status) is the single case `Failed`, as in the source. A 2xx response whose body is not a well-formed result is not modelled: `Outcome.Succeeded` carries a well-typed `Wire.GradingResult`, whereas the source would store such a body and fail later while rendering it. The `console.error` log is not modelled.
- Concurrency. Overlapping submissions are modelled only as interleavings of the submit and settle steps in an event trace (`Client.Run`). The JavaScript scheduler is not modelled.
- The grammar-correction model and `SequenceMatcher.get_opcodes` are foreign code. The corrected text and the opcode list are inputs. `Grading.WellShaped` states the shape difflib gives each opcode. Only `Grading.GrammarEntriesExceedGrammarErrors` needs that shape.
- `calculate_vocabulary_complexity` and `calculate_creativity_score` are NLTK, WordNet and TextBlob heuristics. Their results are inputs. Any error they might raise on an essay that has words is not modelled.
- The punctuation regex `[^\w\s]` depends on Unicode word classes. It is the opaque predicate `startsWithPunct`, applied to the concatenated slices.
- `str.lower()` is modelled on ASCII letters only. Full Unicode case mapping, which can change a string's length, is not modelled. Opcodes computed on the lower-cased texts are applied to the original texts, as in the source.
- `round(x, 2)` on the returned numbers is the identity. The `.2f` in the feedback lines rounds the exact value half-to-even.
- JavaScript's `parseFloat` and `parseInt` are opaque total functions. `NaN` is not modelled.
- `set_grading_parameters` is not modelled. It mutates the global profile table, and it reads an `essay_type` field that `GradingParameters` does not declare.
- The unused `corrections_made` sum is not modelled.
- How FastAPI binds `essay_type` and `grading_params` from the request is not modelled. `Grading.GradeEssay` takes both as given.
- JSX markup and styling are not modelled. Only the visibility conditions are.
- `Grading.Grade`: the report's `score` is the corrected `Grading.FinalScore`, not the source's value, which is ten times larger (see Findings); so `Grading.AdvancedGrade`, `Grading.GradeEssay`, `EndToEnd.Respond` and the client's displayed `score` also carry the corrected value. `Grading.ReportFollowsErrorRate` states the source's value as ten times the reported one.
- `Text.Fixed2`: states the shape of the rendering (a point followed by two decimal digits), not which digits the value yields.
- `Client.Initial`: the initial numbers are stated through their meaning (weights summing to 1, equal to the server's `medium` profile in `EndToEnd.InitialParamsAreMediumProfile`) rather than field by field.

## Findings

| source | as written | input that shows it | evidently intended | confidence | as-written member | corrected member |
|---|---|---|---|---|---|---|
| aigd/backend/backapp.py:125-129 | the weight-normalised average of sub-scores that are already on a 0-10 scale is multiplied by 10 again, so the final score ranges over [0, 100] | sub-scores 10, 10, 10 with weights 0.35, 0.35, 0.3 give 100, which the client then shows as `100/10` | a final score on the 0-10 scale, as the inline comment "Scale to 0-10" and the client's `/10` display say | high; not executed | `Grading.FinalScoreAsWritten`, `Grading.FinalScoreAsWrittenLeavesScale` | `Grading.FinalScore` |

`Grading.Grade` uses the corrected `Grading.FinalScore`, so the report's score, and the score the client receives in `EndToEnd.Respond`, are one tenth of the source's. Every other part of the report follows the source as written.

Two behaviours of the code worth noting.

- A score panel is hidden only when the key is `null`. A response that omits the key still shows the panel. The endpoint always sends every key (`Wire.Encode`), so this does not arise against it.
- On a failed submission the previous result stays on screen (`Client.Settle`). It is not cleared.

=== FILE: client.dfy ===
/** The single-page client: its state, the parameter edits, the submit
    lifecycle and what the result view shows. */
module Client {
  import opened Wrappers
  import opened Params
  import opened Wire

  /** The component's `useState` slots. */
  datatype ClientState = ClientState(
    essay: string,
    result: Option<GradingResult>,
    loading: bool,
    essayType: string,
    params: GradingParams,
    isGrading: bool)

  /** The submit button is disabled by `loading`, which no handler ever sets. */
  predicate SubmitDisabled(s: ClientState) {
    s.loading
  }

  /** The "Grading your essay..." overlay. */
  predicate ShowsSpinner(s: ClientState) {
    s.isGrading
  }

  /** The whole result block is rendered once a result is held; the initial `null` hides it. */
  predicate ShowsResult(s: ClientState) {
    s.result.Some?
  }

  /** A score panel is hidden only by a strict comparison with `null`. A missing key
      reads as `undefined`, which is not `null`, so it still shows the panel. */
  predicate ShowsScorePanel(score: Json<real>): (b: bool)
    ensures score.Absent? ==> b
    ensures score.Present? ==> b
    ensures score.Null? ==> !b
  {
    !score.Null?
  }

  /** The error list is rendered when the list is there (neither missing nor `null`)
      and has at least one entry; an empty list is truthy but still hidden. */
  predicate ShowsDetailedErrors(r: GradingResult): (b: bool)
    ensures b ==> r.detailedErrors.Present?
    ensures r.detailedErrors.Present? ==> (b <==> r.detailedErrors.value != [])
  {
    r.detailedErrors.Present? && |r.detailedErrors.value| > 0
  }

  /** The state at mount: nothing typed, nothing graded, the medium profile's numbers. */
  function Initial(): (s: ClientState)
    ensures s.essay == [] && s.essayType == "medium"
    ensures !ShowsSpinner(s) && !ShowsResult(s) && !SubmitDisabled(s)
    ensures WeightSum(s.params) == 1.0 && 0 <= s.params.minWordCount < s.params.maxWordCount
  {
    ClientState(
      essay := "",
      result := None,
      loading := false,
      essayType := "medium",
      params := GradingParams(300, 600, 0.35, 0.35, 0.3),
      isGrading := false)
  }

  /** `handleParamChange`: one field of the parameters replaced, everything else kept. */
  function HandleParamChange(s: ClientState, f: ParamField, raw: string, parsers: Parsers): (t: ClientState)
    ensures f.IsWeight() ==> Get(t.params, f) == FloatValue(parsers.parseFloat(raw))
    ensures !f.IsWeight() ==> Get(t.params, f) == IntValue(parsers.parseInt(raw))
    ensures forall g :: g != f ==> Get(t.params, g) == Get(s.params, g)
    ensures t.(params := s.params) == s
  {
    s.(params := UpdateParam(s.params, f, raw, parsers))
  }

  /** The POST body: `essay_input.essay`, `essay_type`, `grading_params`. */
  datatype Request = Request(essay: string, essayType: string, params: GradingParams)

  /** How the awaited call settles: a response with its body, or any thrown error
      (a transport failure or an error status). A body that is not a well-formed
      result is not modelled. */
  datatype Outcome = Succeeded(data: GradingResult) | Failed

  /** The state after `setIsGrading(true)`, and the request then sent. */
  datatype Pending = Pending(state: ClientState, request: Request)

  /** The synchronous part of `handleSubmit`, up to the `await`. */
  function BeginSubmit(s: ClientState): (p: Pending)
    ensures ShowsSpinner(p.state)
    ensures p.state.(isGrading := s.isGrading) == s
    ensures p.request.essay == s.essay && p.request.essayType == s.essayType && p.request.params == s.params
  {
    Pending(s.(isGrading := true), Request(s.essay, s.essayType, s.params))
  }

  /** The part of `handleSubmit` after the `await`: keep the response on success,
      keep the old result on failure, clear the overlay either way. */
  function Settle(s: ClientState, o: Outcome): (t: ClientState)
    ensures !ShowsSpinner(t)
    ensures o.Succeeded? ==> t.result == Some(o.data)
    ensures o.Failed? ==> t.result == s.result
    ensures t.(result := s.result, isGrading := s.isGrading) == s
  {
    match o
    case Succeeded(data) => s.(result := Some(data), isGrading := false)
    case Failed => s.(isGrading := false)
  }

  /** One whole `handleSubmit` whose request settles with `o`. */
  function Submit(s: ClientState, o: Outcome): (t: ClientState)
    ensures !ShowsSpinner(t)
    ensures o.Succeeded? ==> ShowsResult(t) && t.result.value == o.data
    ensures o.Failed? ==> t.result == s.result
    ensures t.(result := s.result, isGrading := s.isGrading) == s
  {
    Settle(BeginSubmit(s).state, o)
  }

  /** What can happen to the component: an edit, a submit, or a pending request settling. */
  datatype Event =
    | EssayEdited(text: string)
    | EssayTypeChosen(essayType: string)
    | ParamEdited(field: ParamField, raw: string)
    | SubmitStarted
    | RequestSettled(outcome: Outcome)
  {
    predicate IsLifecycle() {
      SubmitStarted? || RequestSettled?
    }

    predicate IsSuccess() {
      RequestSettled? && outcome.Succeeded?
    }
  }

  /** The effect of one event. Only lifecycle events move the overlay, only a
      successful settlement replaces the result, and nothing sets `loading`. */
  function Step(s: ClientState, e: Event, parsers: Parsers): (t: ClientState)
    ensures t.loading == s.loading
    ensures e.IsLifecycle() ==> (ShowsSpinner(t) <==> e.SubmitStarted?)
    ensures !e.IsLifecycle() ==> ShowsSpinner(t) == ShowsSpinner(s)
    ensures e.IsSuccess() ==> t.result == Some(e.outcome.data)
    ensures !e.IsSuccess() ==> t.result == s.result
    ensures e.IsLifecycle() ==> t.(result := s.result, isGrading := s.isGrading) == s
    ensures e.EssayEdited? ==> t == s.(essay := e.text)
    ensures e.EssayTypeChosen? ==> t == s.(essayType := e.essayType)
    ensures e.ParamEdited? ==> t.params == UpdateParam(s.params, e.field, e.raw, parsers) && t.(params := s.params) == s
  {
    match e
    case EssayEdited(text) => s.(essay := text)
    case EssayTypeChosen(ty) => s.(essayType := ty)
    case ParamEdited(f, raw) => HandleParamChange(s, f, raw, parsers)
    case SubmitStarted => BeginSubmit(s).state
    case RequestSettled(o) => Settle(s, o)
  }

  /** The state after the events `es`, in order. Requests may overlap: several
      `SubmitStarted` may precede their settlements. */
  function Run(s: ClientState, es: seq<Event>, parsers: Parsers): (t: ClientState)
    ensures t.loading == s.loading
    decreases |es|
  {
    if es == [] then s else Step(Run(s, es[..|es| - 1], parsers), es[|es| - 1], parsers)
  }

  /** Running two traces one after the other is running their concatenation. */
  lemma {:induction false} RunConcat(s: ClientState, es: seq<Event>, fs: seq<Event>, parsers: Parsers)
    ensures Run(s, es + fs, parsers) == Run(Run(s, es, parsers), fs, parsers)
    decreases |fs|
  {
    if fs == [] {
      assert es + fs == es;
    } else {
      assert (es + fs)[..|es + fs| - 1] == es + fs[..|fs| - 1];
      RunConcat(s, es, fs[..|fs| - 1], parsers);
    }
  }

  /** From mount, the result block is shown exactly when some request has
      settled successfully. */
  lemma {:induction false} ResultShownIffSomeSuccess(es: seq<Event>, parsers: Parsers)
    ensures ShowsResult(Run(Initial(), es, parsers)) <==> exists i :: 0 <= i < |es| && es[i].IsSuccess()
    decreases |es|
  {
    if es != [] {
      var init := es[..|es| - 1];
      ResultShownIffSomeSuccess(init, parsers);
      if exists i :: 0 <= i < |init| && init[i].IsSuccess() {
        var i :| 0 <= i < |init| && init[i].IsSuccess();
        assert es[i] == init[i];
      }
      if exists i :: 0 <= i < |es| && es[i].IsSuccess() {
        var i :| 0 <= i < |es| && es[i].IsSuccess();
        if i < |init| {
          assert init[i] == es[i];
        }
      }
    }
  }

  /** `loading` is never set, so the submit button is never disabled, in any run. */
  lemma {:induction false} SubmitNeverDisabled(es: seq<Event>, parsers: Parsers)
    ensures !SubmitDisabled(Run(Initial(), es, parsers))
    decreases |es|
  {
    if es != [] {
      SubmitNeverDisabled(es[..|es| - 1], parsers);
    }
  }

  /** Last settled wins: the displayed result is the data of the last successful
      settlement, whatever was started or failed before or after it. */
  lemma {:induction false} LastSuccessWins(s: ClientState, es: seq<Event>, parsers: Parsers, i: nat)
    requires i < |es| && es[i].IsSuccess()
    requires forall j :: i < j < |es| ==> !es[j].IsSuccess()
    ensures Run(s, es, parsers).result == Some(es[i].outcome.data)
    decreases |es|
  {
    if i < |es| - 1 {
      LastSuccessWins(s, es[..|es| - 1], parsers, i);
    }
  }

  /** Without a successful settlement the result shown before is kept. */
  lemma {:induction false} NoSuccessKeepsResult(s: ClientState, es: seq<Event>, parsers: Parsers)
    requires forall j :: 0 <= j < |es| ==> !es[j].IsSuccess()
    ensures Run(s, es, parsers).result == s.result
    decreases |es|
  {
    if es != [] {
      NoSuccessKeepsResult(s, es[..|es| - 1], parsers);
    }
  }

  /** The overlay follows the last lifecycle event alone: it is up exactly when that
      event was a submit, however many other requests are still pending. */
  lemma {:induction false} SpinnerFollowsLastLifecycleEvent(s: ClientState, es: seq<Event>, parsers: Parsers, i: nat)
    requires i < |es| && es[i].IsLifecycle()
    requires forall j :: i < j < |es| ==> !es[j].IsLifecycle()
    ensures ShowsSpinner(Run(s, es, parsers)) <==> es[i].SubmitStarted?
    decreases |es|
  {
    if i < |es| - 1 {
      SpinnerFollowsLastLifecycleEvent(s, es[..|es| - 1], parsers, i);
    }
  }

  /** Two overlapping submits: the first settlement already clears the overlay
      although the second request is still pending. */
  lemma OverlapClearsSpinnerEarly(s: ClientState, o: Outcome, parsers: Parsers)
    ensures !ShowsSpinner(Run(s, [SubmitStarted, SubmitStarted, RequestSettled(o)], parsers))
  {
    SpinnerFollowsLastLifecycleEvent(s, [SubmitStarted, SubmitStarted, RequestSettled(o)], parsers, 2);
  }
}

=== FILE: endtoend.dfy ===
/** The client's request carried through the grading endpoint and back into the view. */
module EndToEnd {
  import opened Wrappers
  import opened Text
  import opened Params
  import opened Grading
  import opened Wire
  import opened Client

  /** The endpoint's answer to a request; a raised error reaches the client as a failed call. */
  function Respond(req: Request, a: Analysis): (o: Outcome)
    ensures o.Failed? <==> Blank(req.essay)
  {
    match GradeEssay(req.essay, req.essayType, Some(req.params), a)
    case Success(rep) => Succeeded(Encode(rep))
    case Failure(_) => Failed
  }

  /** The client always sends its parameters, so the essay type it sends never
      changes the grade. */
  lemma EssayTypeIgnored(req: Request, a: Analysis, otherType: string)
    ensures Respond(req, a) == Respond(req.(essayType := otherType), a)
  {
  }

  /** The numbers the client starts with are the server's medium profile, which is
      also what an unknown essay type falls back to. */
  lemma InitialParamsAreMediumProfile()
    ensures Initial().params == SelectParams(Initial().essayType, None)
    ensures Initial().params == SelectParams("essay", None)
  {
  }

  /** One submission against the endpoint: the overlay is cleared; a blank essay
      leaves the previous result on screen; otherwise the new result is shown,
      each score panel exactly when its weight is positive, the detailed errors
      exactly when the diff has a change, and nothing but result and overlay changes. */
  lemma {:induction false} SubmitAgainstServer(s: ClientState, a: Analysis)
    ensures var t := Submit(s, Respond(BeginSubmit(s).request, a));
      && !ShowsSpinner(t)
      && t.(result := s.result, isGrading := s.isGrading) == s
      && (Blank(s.essay) ==> t.result == s.result)
      && (!Blank(s.essay) ==>
          && ShowsResult(t)
          && t.result.value.totalWords == WordCount(s.essay)
          && (ShowsScorePanel(t.result.value.grammarScore) <==> s.params.grammarWeight > 0.0)
          && (ShowsScorePanel(t.result.value.vocabularyScore) <==> s.params.vocabularyWeight > 0.0)
          && (ShowsScorePanel(t.result.value.creativityScore) <==> s.params.creativityWeight > 0.0)
          && (ShowsDetailedErrors(t.result.value) <==> exists i :: 0 <= i < |a.opcodes| && IsChange(a.opcodes[i])))
  {
    CountIfPositive(a.opcodes, IsChange);
  }

  /** The single-submission scenario: a success whose vocabulary score is `null`
      and whose detailed-error list is empty. */
  lemma NullScoreAndEmptyErrorsHidden()
    ensures
      var s := Initial().(essay := "The cat sat.", essayType := "short");
      var data := GradingResult(
        score := 7.0, grammarScore := Present(8.0), vocabularyScore := Null,
        creativityScore := Present(6.0), errorRate := 2.5, totalWords := 3,
        feedback := ["Too short"], originalEssay := "The cat sat.",
        correctedEssay := "The cat sat.", detailedErrors := Present([]));
      var t := Submit(s, Succeeded(data));
      && ShowsResult(t) && !ShowsSpinner(t)
      && BeginSubmit(s).request == Request("The cat sat.", "short", GradingParams(300, 600, 0.35, 0.35, 0.3))
      && ShowsScorePanel(t.result.value.grammarScore)
      && !ShowsScorePanel(t.result.value.vocabularyScore)
      && ShowsScorePanel(t.result.value.creativityScore)
      && t.result.value.feedback == ["Too short"]
      && !ShowsDetailedErrors(t.result.value)
  {
  }
}

=== FILE: grading.dfy ===
/** The deterministic arithmetic of the grading endpoint: error classification
    over a character diff, the grammar-score bands, the weighted final score,
    the feedback lines and the choice of grading parameters. The diff, the
    correcting language model and the vocabulary/creativity heuristics are inputs. */
module Grading {
  import opened Wrappers
  import opened Text
  import opened Params

  /** A `difflib` opcode `(tag, i1, i2, j1, j2)`: original `[i1, i2)` becomes corrected `[j1, j2)`. */
  datatype Tag = Replace | Delete | Insert | Equal
  datatype Opcode = Opcode(tag: Tag, i1: nat, i2: nat, j1: nat, j2: nat)

  /** The shape `get_opcodes` gives each tag. */
  predicate WellShaped(op: Opcode) {
    match op.tag
    case Equal => op.i1 <= op.i2 && op.i2 - op.i1 == op.j2 - op.j1
    case Replace => op.i1 < op.i2 && op.j1 < op.j2
    case Delete => op.i1 < op.i2 && op.j1 == op.j2
    case Insert => op.i1 == op.i2 && op.j1 < op.j2
  }

  /** Python's `s[i:j]` for non-negative bounds: both ends are clamped to the length. */
  function Slice(s: string, i: nat, j: nat): (t: string)
    ensures |t| <= |s|
    ensures i <= j <= |s| ==> t == s[i..j]
    ensures i <= |s| < j ==> t == s[i..]
    ensures |s| <= i ==> t == []
    ensures j <= i ==> t == []
  {
    var lo := if i < |s| then i else |s|;
    var hi := if j < |s| then j else |s|;
    if hi <= lo then [] else s[lo..hi]
  }

  predicate IsChange(op: Opcode) {
    op.tag != Equal
  }

  /** A replacement, insertion or deletion: any opcode other than an equal span. */
  predicate IsEdit(op: Opcode) {
    op.tag == Replace || op.tag == Insert || op.tag == Delete
  }

  /** A one-character-for-one-character replacement: counted as a spelling error. */
  predicate IsSpelling(op: Opcode) {
    op.tag == Replace && op.j2 - op.j1 == 1 && op.i2 - op.i1 == 1
  }

  /** An edit with a side longer than one character: counted as a grammar error. */
  predicate IsGrammarError(op: Opcode) {
    IsEdit(op) && (op.i2 - op.i1 > 1 || op.j2 - op.j1 > 1)
  }

  /** An insertion or deletion whose text starts with a character that is neither
      a word character nor whitespace; that test is the opaque `startsWithPunct`. */
  predicate IsPunctuationError(op: Opcode, essay: string, corrected: string, startsWithPunct: string -> bool): (b: bool)
    ensures b ==> IsChange(op) && !IsSpelling(op)
  {
    (op.tag == Insert || op.tag == Delete)
    && startsWithPunct(Slice(essay, op.i1, op.i2) + Slice(corrected, op.j1, op.j2))
  }

  /** A one-character insertion or deletion. */
  predicate IsSingleCharEdit(op: Opcode) {
    (op.tag == Insert && op.j2 - op.j1 == 1) || (op.tag == Delete && op.i2 - op.i1 == 1)
  }

  /** Number of elements of `xs` satisfying `p`. */
  function CountIf<T>(xs: seq<T>, p: T -> bool): (n: nat)
    ensures n <= |xs|
  {
    if xs == [] then 0 else CountIf(xs[..|xs| - 1], p) + (if p(xs[|xs| - 1]) then 1 else 0)
  }

  lemma CountIfAppend<T>(xs: seq<T>, x: T, p: T -> bool)
    ensures CountIf(xs + [x], p) == CountIf(xs, p) + (if p(x) then 1 else 0)
  {
    assert (xs + [x])[..|xs|] == xs;
  }

  /** Elements satisfying `p` and, separately, `q` are among those satisfying `r`:
      the two counts together do not exceed the count of `r`. */
  lemma {:induction false} CountIfDisjoint<T>(xs: seq<T>, p: T -> bool, q: T -> bool, r: T -> bool)
    requires forall x :: p(x) ==> r(x)
    requires forall x :: q(x) ==> r(x) && !p(x)
    ensures CountIf(xs, p) + CountIf(xs, q) <= CountIf(xs, r)
  {
    if xs != [] {
      CountIfDisjoint(xs[..|xs| - 1], p, q, r);
    }
  }

  /** Some element satisfies `p` exactly when the count is positive. */
  lemma {:induction false} CountIfPositive<T>(xs: seq<T>, p: T -> bool)
    ensures CountIf(xs, p) > 0 <==> exists i :: 0 <= i < |xs| && p(xs[i])
  {
    if xs != [] {
      var init := xs[..|xs| - 1];
      CountIfPositive(init, p);
      if CountIf(init, p) > 0 {
        var i :| 0 <= i < |init| && p(init[i]);
        assert xs[i] == init[i];
      }
      if exists i :: 0 <= i < |xs| && p(xs[i]) {
        var i :| 0 <= i < |xs| && p(xs[i]);
        if i < |init| {
          assert init[i] == xs[i];
        }
      }
    }
  }

  datatype ErrorKind = Spelling | Grammar | Punctuation

  /** One entry of `detailed_errors`. */
  datatype DetailedError = DetailedError(kind: ErrorKind, original: string, corrected: string)

  predicate IsSpellingEntry(e: DetailedError) {
    e.kind == Spelling
  }

  predicate IsGrammarEntry(e: DetailedError) {
    e.kind == Grammar
  }

  /** The `error_type` of a changed span. */
  function Classify(op: Opcode): (k: ErrorKind)
    ensures k == Spelling <==> IsSpelling(op)
    ensures IsChange(op) ==> k != Punctuation
  {
    if IsSpelling(op) then Spelling
    else if IsEdit(op) then Grammar
    else Punctuation
  }

  /** The entry reported for one changed span: its kind and both slices. */
  function Describe(op: Opcode, essay: string, corrected: string): DetailedError {
    DetailedError(Classify(op), Slice(essay, op.i1, op.i2), Slice(corrected, op.j1, op.j2))
  }

  /** `detailed_errors`: one entry per non-equal opcode, in opcode order. */
  function DetailedErrors(ops: seq<Opcode>, essay: string, corrected: string): (errs: seq<DetailedError>)
    ensures |errs| == CountIf(ops, IsChange)
    ensures forall e :: e in errs ==> e.kind == Spelling || e.kind == Grammar
    ensures forall i :: 0 <= i < |ops| && IsChange(ops[i]) ==>
      CountIf(ops[..i], IsChange) < |errs| && errs[CountIf(ops[..i], IsChange)] == Describe(ops[i], essay, corrected)
  {
    if ops == [] then []
    else
      var init := ops[..|ops| - 1];
      var last := ops[|ops| - 1];
      var front := DetailedErrors(init, essay, corrected);
      assert forall i :: 0 <= i < |init| ==> init[..i] == ops[..i];
      assert ops[..|init|] == init;
      front + (if IsChange(last) then [Describe(last, essay, corrected)] else [])
  }

  /** The number of Spelling entries is `spelling_errors`. */
  lemma {:induction false} SpellingEntriesCountSpellingErrors(ops: seq<Opcode>, essay: string, corrected: string)
    ensures CountIf(DetailedErrors(ops, essay, corrected), IsSpellingEntry) == CountIf(ops, IsSpelling)
  {
    if ops != [] {
      var init := ops[..|ops| - 1];
      var last := ops[|ops| - 1];
      SpellingEntriesCountSpellingErrors(init, essay, corrected);
      if IsChange(last) {
        CountIfAppend(DetailedErrors(init, essay, corrected), Describe(last, essay, corrected), IsSpellingEntry);
      } else {
        assert DetailedErrors(ops, essay, corrected) == DetailedErrors(init, essay, corrected);
      }
    }
  }

  /** A well-shaped changed span is classified Grammar exactly when it is a counted
      grammar error or a one-character insertion or deletion, never both. */
  lemma GrammarKindOfOne(op: Opcode)
    requires WellShaped(op)
    ensures IsChange(op) ==> (Classify(op) == Grammar <==> IsGrammarError(op) || IsSingleCharEdit(op))
    ensures !(IsGrammarError(op) && IsSingleCharEdit(op))
    ensures !IsChange(op) ==> !IsGrammarError(op) && !IsSingleCharEdit(op)
  {
  }

  /** With well-shaped opcodes, the Grammar entries are the counted grammar errors
      plus the one-character insertions and deletions, which `grammar_errors` misses. */
  lemma {:induction false} GrammarEntriesExceedGrammarErrors(ops: seq<Opcode>, essay: string, corrected: string)
    requires forall i :: 0 <= i < |ops| ==> WellShaped(ops[i])
    ensures CountIf(DetailedErrors(ops, essay, corrected), IsGrammarEntry)
         == CountIf(ops, IsGrammarError) + CountIf(ops, IsSingleCharEdit)
  {
    if ops != [] {
      var init := ops[..|ops| - 1];
      var last := ops[|ops| - 1];
      var front := DetailedErrors(init, essay, corrected);
      GrammarEntriesExceedGrammarErrors(init, essay, corrected);
      GrammarKindOfOne(last);
      assert CountIf(ops, IsGrammarError) == CountIf(init, IsGrammarError) + (if IsGrammarError(last) then 1 else 0);
      assert CountIf(ops, IsSingleCharEdit) == CountIf(init, IsSingleCharEdit) + (if IsSingleCharEdit(last) then 1 else 0);
      if IsChange(last) {
        assert DetailedErrors(ops, essay, corrected) == front + [Describe(last, essay, corrected)];
        CountIfAppend(front, Describe(last, essay, corrected), IsGrammarEntry);
      } else {
        assert DetailedErrors(ops, essay, corrected) == front;
      }
    }
  }

  /** The grammar-score bands over the error rate. */
  function GrammarScore(rate: real): (g: real)
    ensures 0.0 <= g <= 10.0
    ensures g == 10.0 <==> rate <= 0.02
    ensures g >= 7.0 <==> rate <= 0.15
    ensures rate <= 0.15 ==> g == 10.0 || g == 9.0 || g == 8.0 || g == 7.0
    ensures g == 0.0 <==> rate >= 0.45
    ensures 0.02 < rate <= 0.05 ==> g == 9.0
    ensures 0.05 < rate <= 0.1 ==> g == 8.0
    ensures 0.1 < rate <= 0.15 ==> g == 7.0
    ensures 0.15 < rate < 0.45 ==> g == 6.0 - (rate - 0.15) * 20.0
  {
    if rate <= 0.02 then 10.0
    else if rate <= 0.05 then 9.0
    else if rate <= 0.1 then 8.0
    else if rate <= 0.15 then 7.0
    else
      var linear := 6.0 - (rate - 0.15) * 20.0;
      if linear > 0.0 then linear else 0.0
  }

  /** A higher error rate never earns a higher grammar score. */
  lemma GrammarScoreNonIncreasing(a: real, b: real)
    requires a <= b
    ensures GrammarScore(b) <= GrammarScore(a)
  {
    if b > 0.15 && a > 0.15 {
      assert 6.0 - (b - 0.15) * 20.0 <= 6.0 - (a - 0.15) * 20.0;
    }
  }

  predicate NonNegativeWeights(p: GradingParams) {
    p.grammarWeight >= 0.0 && p.vocabularyWeight >= 0.0 && p.creativityWeight >= 0.0
  }

  function Min3(a: real, b: real, c: real): real {
    if a <= b && a <= c then a else if b <= c then b else c
  }

  function Max3(a: real, b: real, c: real): real {
    if a >= b && a >= c then a else if b >= c then b else c
  }

  /** The weight-normalised average of the three sub-scores. */
  function WeightedAverage(g: real, v: real, c: real, p: GradingParams): real
    requires WeightSum(p) != 0.0
  {
    (g * p.grammarWeight + v * p.vocabularyWeight + c * p.creativityWeight) / WeightSum(p)
  }

  lemma ScaleByNonNegative(x: real, y: real, w: real)
    requires x <= y && w >= 0.0
    ensures x * w <= y * w
  {
    assert y * w - x * w == (y - x) * w;
  }

  lemma DivideByPositive(x: real, y: real, t: real)
    requires x * t <= y && t > 0.0
    ensures x <= y / t
  {
    assert x == (x * t) / t;
  }

  lemma DivideByPositiveUpper(x: real, y: real, t: real)
    requires y <= x * t && t > 0.0
    ensures y / t <= x
  {
    assert x == (x * t) / t;
  }

  lemma SumBetween(x1: real, x2: real, x3: real, w1: real, w2: real, w3: real, lo: real, hi: real)
    requires w1 >= 0.0 && w2 >= 0.0 && w3 >= 0.0
    requires lo == Min3(x1, x2, x3) && hi == Max3(x1, x2, x3)
    ensures lo * (w1 + w2 + w3) <= x1 * w1 + x2 * w2 + x3 * w3
    ensures x1 * w1 + x2 * w2 + x3 * w3 <= hi * (w1 + w2 + w3)
  {
    SumBelow(x1, x2, x3, w1, w2, w3, lo);
    SumAbove(x1, x2, x3, w1, w2, w3, hi);
  }

  lemma SumBelow(x1: real, x2: real, x3: real, w1: real, w2: real, w3: real, lo: real)
    requires w1 >= 0.0 && w2 >= 0.0 && w3 >= 0.0
    requires lo <= x1 && lo <= x2 && lo <= x3
    ensures lo * (w1 + w2 + w3) <= x1 * w1 + x2 * w2 + x3 * w3
  {
    ScaleByNonNegative(lo, x1, w1);
    ScaleByNonNegative(lo, x2, w2);
    ScaleByNonNegative(lo, x3, w3);
    assert lo * (w1 + w2 + w3) == lo * w1 + lo * w2 + lo * w3;
  }

  lemma SumAbove(x1: real, x2: real, x3: real, w1: real, w2: real, w3: real, hi: real)
    requires w1 >= 0.0 && w2 >= 0.0 && w3 >= 0.0
    requires x1 <= hi && x2 <= hi && x3 <= hi
    ensures x1 * w1 + x2 * w2 + x3 * w3 <= hi * (w1 + w2 + w3)
  {
    ScaleByNonNegative(x1, hi, w1);
    ScaleByNonNegative(x2, hi, w2);
    ScaleByNonNegative(x3, hi, w3);
    assert hi * (w1 + w2 + w3) == hi * w1 + hi * w2 + hi * w3;
  }

  /** A normalised average with non-negative weights lies between the smallest
      and the largest of the averaged values. */
  lemma WeightedAverageBetween(g: real, v: real, c: real, p: GradingParams)
    requires NonNegativeWeights(p) && WeightSum(p) > 0.0
    ensures Min3(g, v, c) <= WeightedAverage(g, v, c, p) <= Max3(g, v, c)
  {
    var lo, hi := Min3(g, v, c), Max3(g, v, c);
    var num := g * p.grammarWeight + v * p.vocabularyWeight + c * p.creativityWeight;
    assert WeightedAverage(g, v, c, p) == num / WeightSum(p);
    SumBetween(g, v, c, p.grammarWeight, p.vocabularyWeight, p.creativityWeight, lo, hi);
    DivideByPositive(lo, num, WeightSum(p));
    DivideByPositiveUpper(hi, num, WeightSum(p));
  }

  /** The final score as the source computes it: the weighted average, then `* 10`. */
  function FinalScoreAsWritten(g: real, v: real, c: real, p: GradingParams): (r: real)
    ensures WeightSum(p) == 0.0 ==> r == 0.0
    ensures WeightSum(p) != 0.0 ==>
      r * WeightSum(p) == 10.0 * (g * p.grammarWeight + v * p.vocabularyWeight + c * p.creativityWeight)
  {
    if WeightSum(p) == 0.0 then 0.0 else WeightedAverage(g, v, c, p) * 10.0
  }

  /** The sub-scores are already on the 0-10 scale, so the extra `* 10` puts a
      perfect essay at 100 on a score the interface shows out of 10. */
  lemma FinalScoreAsWrittenLeavesScale()
    ensures FinalScoreAsWritten(10.0, 10.0, 10.0, GradingParams(300, 600, 0.35, 0.35, 0.3)) == 100.0
  {
    var p := GradingParams(300, 600, 0.35, 0.35, 0.3);
    assert WeightSum(p) == 1.0;
    assert WeightedAverage(10.0, 10.0, 10.0, p) == 10.0;
  }

  /** The final score kept on the sub-scores' own 0-10 scale; 0 when the weights sum to 0. */
  function FinalScore(g: real, v: real, c: real, p: GradingParams): (r: real)
    ensures WeightSum(p) == 0.0 ==> r == 0.0
    ensures WeightSum(p) != 0.0 ==>
      r * WeightSum(p) == g * p.grammarWeight + v * p.vocabularyWeight + c * p.creativityWeight
    ensures NonNegativeWeights(p) && WeightSum(p) > 0.0 ==> Min3(g, v, c) <= r <= Max3(g, v, c)
    ensures FinalScoreAsWritten(g, v, c, p) == 10.0 * r
  {
    if WeightSum(p) == 0.0 then 0.0
    else if NonNegativeWeights(p) && WeightSum(p) > 0.0 then
      WeightedAverageBetween(g, v, c, p);
      WeightedAverage(g, v, c, p)
    else
      WeightedAverage(g, v, c, p)
  }

  /** Sub-scores on the 0-10 scale give a final score on the 0-10 scale. */
  lemma FinalScoreOnScale(g: real, v: real, c: real, p: GradingParams)
    ensures (NonNegativeWeights(p) && WeightSum(p) > 0.0
             && 0.0 <= g <= 10.0 && 0.0 <= v <= 10.0 && 0.0 <= c <= 10.0) ==> 0.0 <= FinalScore(g, v, c, p) <= 10.0
  {
    if NonNegativeWeights(p) && WeightSum(p) > 0.0 {
      assert 0.0 <= Min3(g, v, c) || !(0.0 <= g && 0.0 <= v && 0.0 <= c);
      assert Max3(g, v, c) <= 10.0 || !(g <= 10.0 && v <= 10.0 && c <= 10.0);
    }
  }

  /** One line of `feedback`. */
  datatype Feedback =
    | WordCountOutOfRange(count: nat, min: int, max: int)
    | SpellingErrors(spelling: nat)
    | GrammarErrors(grammar: nat)
    | PunctuationErrors(punctuation: nat)
    | GrammarScoreLine(grammarScore: real)
    | VocabularyScoreLine(vocabularyScore: real)
    | CreativityScoreLine(creativityScore: real)
  {
    predicate IsScoreLine() {
      GrammarScoreLine? || VocabularyScoreLine? || CreativityScoreLine?
    }

    predicate IsCountLine() {
      SpellingErrors? || GrammarErrors? || PunctuationErrors?
    }

    /** The number a count line reports. */
    function Count(): nat
      requires IsCountLine()
    {
      if SpellingErrors? then spelling else if GrammarErrors? then grammar else punctuation
    }

    /** The sub-score a score line reports. */
    function Score(): real
      requires IsScoreLine()
    {
      if GrammarScoreLine? then grammarScore else if VocabularyScoreLine? then vocabularyScore else creativityScore
    }

    /** The line's place in the order the feedback is written in. */
    function Rank(): nat {
      match this
      case WordCountOutOfRange(_, _, _) => 0
      case SpellingErrors(_) => 1
      case GrammarErrors(_) => 2
      case PunctuationErrors(_) => 3
      case GrammarScoreLine(_) => 4
      case VocabularyScoreLine(_) => 5
      case CreativityScoreLine(_) => 6
    }
  }

  /** The fixed words a feedback line opens with. */
  function Label(f: Feedback): string {
    match f
    case WordCountOutOfRange(_, _, _) => "Word count ("
    case SpellingErrors(_) => "Spelling errors: "
    case GrammarErrors(_) => "Grammar errors: "
    case PunctuationErrors(_) => "Punctuation errors: "
    case GrammarScoreLine(_) => "Grammar score: "
    case VocabularyScoreLine(_) => "Vocabulary score: "
    case CreativityScoreLine(_) => "Creativity score: "
  }

  /** The rest of a feedback line: its numbers and the text around them. */
  function Detail(f: Feedback): (d: string)
    ensures f.IsCountLine() ==> d == NatToString(f.Count())
    ensures f.IsScoreLine() ==> d == Fixed2(f.Score()) + "/10"
    ensures f.IsScoreLine() ==> |d| >= 7 && d[|d| - 3..] == "/10" && d[|d| - 6] == '.'
  {
    match f
    case WordCountOutOfRange(n, lo, hi) =>
      NatToString(n) + ") is outside the required range (" + IntToString(lo) + "-" + IntToString(hi) + ")."
    case SpellingErrors(n) => NatToString(n)
    case GrammarErrors(n) => NatToString(n)
    case PunctuationErrors(n) => NatToString(n)
    case GrammarScoreLine(x) => Fixed2(x) + "/10"
    case VocabularyScoreLine(x) => Fixed2(x) + "/10"
    case CreativityScoreLine(x) => Fixed2(x) + "/10"
  }

  /** The text of a feedback line: its fixed opening words, then, for a count
      line, the count in decimal, and for a score line the score rendered with
      two decimals followed by `/10`. */
  function Message(f: Feedback): (m: string)
    ensures |Label(f)| <= |m| && m[..|Label(f)|] == Label(f)
    ensures f.IsCountLine() ==>
      |NatToString(f.Count())| <= |m| && m[|m| - |NatToString(f.Count())|..] == NatToString(f.Count())
    ensures f.IsScoreLine() ==>
      |Fixed2(f.Score())| + 3 <= |m| && m[|m| - |Fixed2(f.Score())| - 3..] == Fixed2(f.Score()) + "/10"
    ensures f.IsScoreLine() ==> |m| >= 7 && m[|m| - 3..] == "/10" && m[|m| - 6] == '.'
  {
    SplitKept(Label(f), Detail(f));
    if f.IsScoreLine() then
      TailKept(Label(f), Detail(f));
      Label(f) + Detail(f)
    else
      Label(f) + Detail(f)
  }

  /** A concatenation starts with its first part and ends with its second. */
  lemma SplitKept(p: string, d: string)
    ensures (p + d)[..|p|] == p && (p + d)[|p|..] == d
  {
  }

  /** Prepending keeps the last six characters of a text. */
  lemma TailKept(p: string, d: string)
    requires |d| >= 6
    ensures |p + d| >= |d|
    ensures (p + d)[|p + d| - 3..] == d[|d| - 3..] && (p + d)[|p + d| - 6] == d[|d| - 6]
  {
  }

  /** The first and ninth characters of a line's text, fixed by its kind. */
  function Signature(f: Feedback): (char, char) {
    match f
    case WordCountOutOfRange(_, _, _) => ('W', 'n')
    case SpellingErrors(_) => ('S', ' ')
    case GrammarErrors(_) => ('G', 'e')
    case PunctuationErrors(_) => ('P', 'i')
    case GrammarScoreLine(_) => ('G', 's')
    case VocabularyScoreLine(_) => ('V', 'r')
    case CreativityScoreLine(_) => ('C', 't')
  }

  /** Appending keeps the first nine characters of a text. */
  lemma HeadKept(p: string, x: string)
    requires |p| > 8
    ensures |p + x| > 8 && (p + x)[0] == p[0] && (p + x)[8] == p[8]
  {
  }

  lemma MessageSignature(f: Feedback)
    ensures |Message(f)| > 8 && (Message(f)[0], Message(f)[8]) == Signature(f)
  {
    HeadKept(Label(f), Detail(f));
  }

  /** Lines of different kinds never read the same, so the feedback text tells
      which line is which. */
  lemma MessagesTellKindsApart(f1: Feedback, f2: Feedback)
    requires f1.Rank() != f2.Rank()
    ensures Message(f1) != Message(f2)
  {
    MessageSignature(f1);
    MessageSignature(f2);
  }

  predicate InWordRange(wordCount: nat, p: GradingParams) {
    p.minWordCount <= wordCount <= p.maxWordCount
  }

  /** The lines appear in the order the feedback is written in, each kind at most once. */
  predicate InOrder(fb: seq<Feedback>) {
    forall i, j :: 0 <= i < j < |fb| ==> fb[i].Rank() < fb[j].Rank()
  }

  /** Two ordered runs of lines separated by the rank `m` join into an ordered run. */
  lemma InOrderConcat(a: seq<Feedback>, b: seq<Feedback>, m: nat)
    requires InOrder(a) && InOrder(b)
    requires forall i :: 0 <= i < |a| ==> a[i].Rank() < m
    requires forall j :: 0 <= j < |b| ==> m <= b[j].Rank()
    ensures InOrder(a + b)
  {
    forall i, j | 0 <= i < j < |a + b|
      ensures (a + b)[i].Rank() < (a + b)[j].Rank()
    {
      if j < |a| {
        assert (a + b)[i] == a[i] && (a + b)[j] == a[j];
      } else if i < |a| {
        assert (a + b)[i] == a[i] && (a + b)[j] == b[j - |a|];
      } else {
        assert (a + b)[i] == b[i - |a|] && (a + b)[j] == b[j - |a|];
      }
    }
  }

  /** How many of the three weights are positive. */
  function PositiveWeights(p: GradingParams): nat {
    (if p.grammarWeight > 0.0 then 1 else 0)
    + (if p.vocabularyWeight > 0.0 then 1 else 0)
    + (if p.creativityWeight > 0.0 then 1 else 0)
  }

  /** The score lines, in the order grammar, vocabulary, creativity, for the positive weights. */
  function ScoreLines(g: real, v: real, c: real, p: GradingParams): (lines: seq<Feedback>)
    ensures |lines| == PositiveWeights(p)
    ensures forall i :: 0 <= i < |lines| ==> lines[i].IsScoreLine()
    ensures InOrder(lines)
    ensures GrammarScoreLine(g) in lines <==> p.grammarWeight > 0.0
    ensures VocabularyScoreLine(v) in lines <==> p.vocabularyWeight > 0.0
    ensures CreativityScoreLine(c) in lines <==> p.creativityWeight > 0.0
  {
    (if p.grammarWeight > 0.0 then [GrammarScoreLine(g)] else [])
    + (if p.vocabularyWeight > 0.0 then [VocabularyScoreLine(v)] else [])
    + (if p.creativityWeight > 0.0 then [CreativityScoreLine(c)] else [])
  }

  /** The lines before the score lines: the word-count warning when the count is
      out of range, then the three error counts. */
  function OpeningLines(wordCount: nat, spelling: nat, grammar: nat, punctuation: nat, p: GradingParams): (lines: seq<Feedback>)
    ensures var k := if InWordRange(wordCount, p) then 0 else 1;
      && |lines| == k + 3
      && (lines[0].WordCountOutOfRange? <==> !InWordRange(wordCount, p))
      && (!InWordRange(wordCount, p) ==> lines[0] == WordCountOutOfRange(wordCount, p.minWordCount, p.maxWordCount))
      && lines[k] == SpellingErrors(spelling)
      && lines[k + 1] == GrammarErrors(grammar)
      && lines[k + 2] == PunctuationErrors(punctuation)
    ensures InOrder(lines)
    ensures forall i :: 0 <= i < |lines| ==> lines[i].Rank() < 4
  {
    var counts := [SpellingErrors(spelling), GrammarErrors(grammar), PunctuationErrors(punctuation)];
    if InWordRange(wordCount, p) then counts
    else [WordCountOutOfRange(wordCount, p.minWordCount, p.maxWordCount)] + counts
  }

  /** `feedback`: the word-count warning first when the count is out of range,
      then the three error counts, then a score line for each positively weighted sub-score. */
  function BuildFeedback(wordCount: nat, spelling: nat, grammar: nat, punctuation: nat,
                         g: real, v: real, c: real, p: GradingParams): (fb: seq<Feedback>)
    ensures var k := if InWordRange(wordCount, p) then 0 else 1;
      && |fb| == k + 3 + PositiveWeights(p)
      && (fb[0].WordCountOutOfRange? <==> !InWordRange(wordCount, p))
      && (!InWordRange(wordCount, p) ==> fb[0] == WordCountOutOfRange(wordCount, p.minWordCount, p.maxWordCount))
      && fb[k] == SpellingErrors(spelling)
      && fb[k + 1] == GrammarErrors(grammar)
      && fb[k + 2] == PunctuationErrors(punctuation)
      && (forall i :: k + 3 <= i < |fb| ==> fb[i].IsScoreLine())
    ensures InOrder(fb)
    ensures GrammarScoreLine(g) in fb <==> p.grammarWeight > 0.0
    ensures VocabularyScoreLine(v) in fb <==> p.vocabularyWeight > 0.0
    ensures CreativityScoreLine(c) in fb <==> p.creativityWeight > 0.0
  {
    var opening := OpeningLines(wordCount, spelling, grammar, punctuation, p);
    var scores := ScoreLines(g, v, c, p);
    InOrderConcat(opening, scores, 4);
    opening + scores
  }

  /** `ZeroDivisionError` from dividing by a zero word count. */
  datatype GradeError = ZeroDivision

  /** The dictionary `advanced_grade_essay` returns; `round(…, 2)` is not applied. */
  datatype GradeReport = GradeReport(
    score: real,
    detailedErrors: seq<DetailedError>,
    grammarScore: Option<real>,
    vocabularyScore: Option<real>,
    creativityScore: Option<real>,
    feedback: seq<Feedback>,
    originalEssay: string,
    correctedEssay: string,
    totalWords: nat,
    errorRate: real)

  function SpellingCount(ops: seq<Opcode>): nat {
    CountIf(ops, IsSpelling)
  }

  function GrammarCount(ops: seq<Opcode>): nat {
    CountIf(ops, IsGrammarError)
  }

  /** `punctuation_errors`. A punctuation error is a changed span that is never also
      a spelling error, so the two counts together never exceed the changed spans. */
  function PunctuationCount(ops: seq<Opcode>, essay: string, corrected: string, startsWithPunct: string -> bool): (n: nat)
    ensures n + SpellingCount(ops) <= CountIf(ops, IsChange)
  {
    var punct := op => IsPunctuationError(op, essay, corrected, startsWithPunct);
    CountIfDisjoint(ops, IsSpelling, punct, IsChange);
    CountIf(ops, punct)
  }

  /** `error_rate`: errors per word of the essay. */
  function ErrorRate(errors: nat, words: nat): (rate: real)
    requires words > 0
    ensures rate >= 0.0
    ensures rate * words as real == errors as real
    ensures errors == 0 <==> rate == 0.0
  {
    DivideByPositive(0.0, errors as real, words as real);
    errors as real / words as real
  }

  /** `advanced_grade_essay` with the diff of the lower-cased texts given as `ops`,
      and the vocabulary and creativity scores given as values. It raises exactly
      when the essay has no words. */
  function AdvancedGrade(essay: string, corrected: string, ops: seq<Opcode>, startsWithPunct: string -> bool,
                         vocabulary: real, creativity: real, p: GradingParams): (r: Result<GradeReport, GradeError>)
    ensures r.Failure? <==> Blank(essay)
    ensures r.Success? ==> r.value == Grade(essay, corrected, ops, startsWithPunct, vocabulary, creativity, p)
  {
    LowerKeepsWordCount(essay);
    if WordCount(Lower(essay)) == 0 then Failure(ZeroDivision)
    else Success(Grade(essay, corrected, ops, startsWithPunct, vocabulary, creativity, p))
  }

  /** The report `advanced_grade_essay` returns for an essay with at least one word. */
  function Grade(essay: string, corrected: string, ops: seq<Opcode>, startsWithPunct: string -> bool,
                 vocabulary: real, creativity: real, p: GradingParams): (rep: GradeReport)
    requires !Blank(essay)
    ensures rep.totalWords == WordCount(essay) > 0
    ensures rep.originalEssay == essay && rep.correctedEssay == corrected
    ensures rep.errorRate >= 0.0
    ensures |rep.detailedErrors| == CountIf(ops, IsChange)
    ensures rep.grammarScore.None? <==> p.grammarWeight <= 0.0
    ensures rep.vocabularyScore.None? <==> p.vocabularyWeight <= 0.0
    ensures rep.creativityScore.None? <==> p.creativityWeight <= 0.0
    ensures rep.grammarScore.Some? ==> 0.0 <= rep.grammarScore.value <= 10.0
    ensures rep.vocabularyScore.Some? ==> rep.vocabularyScore.value == vocabulary
    ensures rep.creativityScore.Some? ==> rep.creativityScore.value == creativity
    ensures |rep.feedback| >= 3
    ensures rep.feedback[0].WordCountOutOfRange? <==> !InWordRange(WordCount(essay), p)
    ensures SpellingErrors(SpellingCount(ops)) in rep.feedback
    ensures GrammarErrors(GrammarCount(ops)) in rep.feedback
    ensures PunctuationErrors(PunctuationCount(ops, essay, corrected, startsWithPunct)) in rep.feedback
    ensures WeightSum(p) == 0.0 ==> rep.score == 0.0
    ensures (NonNegativeWeights(p) && WeightSum(p) > 0.0
             && 0.0 <= vocabulary <= 10.0 && 0.0 <= creativity <= 10.0) ==> 0.0 <= rep.score <= 10.0
  {
    LowerKeepsWordCount(essay);
    var totalWords := WordCount(Lower(essay));
    var spelling := SpellingCount(ops);
    var grammar := GrammarCount(ops);
    var punctuation := PunctuationCount(ops, essay, corrected, startsWithPunct);
    var rate := ErrorRate(spelling + grammar + punctuation, totalWords);
    var g := GrammarScore(rate);
    var fb := BuildFeedback(WordCount(essay), spelling, grammar, punctuation, g, vocabulary, creativity, p);
    assert SpellingErrors(spelling) in fb && GrammarErrors(grammar) in fb && PunctuationErrors(punctuation) in fb;
    FinalScoreOnScale(g, vocabulary, creativity, p);
    GradeReport(
      score := FinalScore(g, vocabulary, creativity, p),
      detailedErrors := DetailedErrors(ops, essay, corrected),
      grammarScore := if p.grammarWeight > 0.0 then Some(g) else None,
      vocabularyScore := if p.vocabularyWeight > 0.0 then Some(vocabulary) else None,
      creativityScore := if p.creativityWeight > 0.0 then Some(creativity) else None,
      feedback := fb,
      originalEssay := essay,
      correctedEssay := corrected,
      totalWords := totalWords,
      errorRate := rate * 100.0)
  }

  /** The spelling count in the feedback equals the number of Spelling entries. */
  lemma {:induction false} ReportSpellingConsistent(essay: string, corrected: string, ops: seq<Opcode>, startsWithPunct: string -> bool,
                                 vocabulary: real, creativity: real, p: GradingParams)
    requires !Blank(essay)
    ensures var rep := Grade(essay, corrected, ops, startsWithPunct, vocabulary, creativity, p);
      SpellingErrors(CountIf(rep.detailedErrors, IsSpellingEntry)) in rep.feedback
  {
    SpellingEntriesCountSpellingErrors(ops, essay, corrected);
  }

  /** The reported error rate is the percentage of errors per word, and both the
      grammar score and the final score are computed from that rate. */
  lemma {:induction false} ReportFollowsErrorRate(essay: string, corrected: string, ops: seq<Opcode>, startsWithPunct: string -> bool,
                                                  vocabulary: real, creativity: real, p: GradingParams)
    requires !Blank(essay)
    ensures var rep := Grade(essay, corrected, ops, startsWithPunct, vocabulary, creativity, p);
      var errors := SpellingCount(ops) + GrammarCount(ops) + PunctuationCount(ops, essay, corrected, startsWithPunct);
      var rate := ErrorRate(errors, WordCount(essay));
      && rep.errorRate == 100.0 * rate
      && (rep.grammarScore.Some? ==> rep.grammarScore.value == GrammarScore(rate))
      && rep.score == FinalScore(GrammarScore(rate), vocabulary, creativity, p)
      && FinalScoreAsWritten(GrammarScore(rate), vocabulary, creativity, p) == 10.0 * rep.score
  {
    LowerKeepsWordCount(essay);
  }

  /** The report's `feedback` is the list `BuildFeedback` makes from the essay's word
      count, the three error counts and the three sub-scores. */
  lemma {:induction false} ReportFeedbackIsBuilt(essay: string, corrected: string, ops: seq<Opcode>, startsWithPunct: string -> bool,
                                                 vocabulary: real, creativity: real, p: GradingParams)
    requires !Blank(essay)
    ensures var errors := SpellingCount(ops) + GrammarCount(ops) + PunctuationCount(ops, essay, corrected, startsWithPunct);
      Grade(essay, corrected, ops, startsWithPunct, vocabulary, creativity, p).feedback
      == BuildFeedback(WordCount(essay), SpellingCount(ops), GrammarCount(ops),
                       PunctuationCount(ops, essay, corrected, startsWithPunct),
                       GrammarScore(ErrorRate(errors, WordCount(essay))), vocabulary, creativity, p)
  {
    LowerKeepsWordCount(essay);
  }

  /** The report's `detailed_errors` are the entries of the diff's changed spans, in order. */
  lemma {:induction false} ReportListsEveryChange(essay: string, corrected: string, ops: seq<Opcode>, startsWithPunct: string -> bool,
                                                  vocabulary: real, creativity: real, p: GradingParams)
    requires !Blank(essay)
    ensures Grade(essay, corrected, ops, startsWithPunct, vocabulary, creativity, p).detailedErrors
            == DetailedErrors(ops, essay, corrected)
  {
  }

  /** The built-in profiles of `default_grading_parameters`. */
  const ShortProfile := GradingParams(100, 300, 0.4, 0.3, 0.3)
  const MediumProfile := GradingParams(300, 600, 0.35, 0.35, 0.3)
  const LongProfile := GradingParams(600, 1000, 0.3, 0.4, 0.3)

  const DefaultProfiles: map<string, GradingParams> :=
    map["short" := ShortProfile, "medium" := MediumProfile, "long" := LongProfile]

  /** Every built-in profile has non-negative weights summing to 1 and a non-empty
      word range, and the three ranges are contiguous from short to long. */
  lemma DefaultProfilesAreConsistent()
    ensures forall t :: t in DefaultProfiles ==>
      var p := DefaultProfiles[t];
      NonNegativeWeights(p) && WeightSum(p) == 1.0 && p.minWordCount < p.maxWordCount
    ensures DefaultProfiles["short"].maxWordCount == DefaultProfiles["medium"].minWordCount
    ensures DefaultProfiles["medium"].maxWordCount == DefaultProfiles["long"].minWordCount
  {
  }

  /** The parameter choice in `grade_essay`: the supplied parameters when present,
      otherwise the profile for `essayType`, falling back to `"medium"`. */
  function SelectParams(essayType: string, supplied: Option<GradingParams>): (p: GradingParams)
    ensures supplied.Some? ==> p == supplied.value
    ensures supplied.None? ==> p in DefaultProfiles.Values
    ensures supplied.None? && essayType !in DefaultProfiles ==> p == DefaultProfiles["medium"]
    ensures supplied.None? && essayType in DefaultProfiles ==> p == DefaultProfiles[essayType]
  {
    match supplied
    case Some(given) => given
    case None => if essayType in DefaultProfiles then DefaultProfiles[essayType] else DefaultProfiles["medium"]
  }

  /** Without supplied parameters an unknown essay type is graded exactly as a medium essay. */
  lemma UnknownTypeGradedAsMedium(essayType: string)
    requires essayType != "short" && essayType != "medium" && essayType != "long"
    ensures SelectParams(essayType, None) == SelectParams("medium", None)
  {
  }

  /** What `grade_essay` computes besides the essay: the corrected text, its diff,
      the punctuation test and the two heuristic scores. */
  datatype Analysis = Analysis(
    corrected: string,
    opcodes: seq<Opcode>,
    startsWithPunct: string -> bool,
    vocabulary: real,
    creativity: real)

  /** `grade_essay`: choose the parameters, then grade. */
  function GradeEssay(essay: string, essayType: string, supplied: Option<GradingParams>, a: Analysis)
    : (r: Result<GradeReport, GradeError>)
    ensures r.Failure? <==> Blank(essay)
    ensures supplied.Some? ==> r == AdvancedGrade(essay, a.corrected, a.opcodes, a.startsWithPunct, a.vocabulary, a.creativity, supplied.value)
  {
    AdvancedGrade(essay, a.corrected, a.opcodes, a.startsWithPunct, a.vocabulary, a.creativity, SelectParams(essayType, supplied))
  }
}

=== FILE: params.dfy ===
/** The five-field grading-parameter record that the client edits and the server scores with. */
module Params {
  import opened Text

  /** `min_word_count`, `max_word_count` and the three weights. */
  datatype GradingParams = GradingParams(
    minWordCount: int,
    maxWordCount: int,
    grammarWeight: real,
    vocabularyWeight: real,
    creativityWeight: real)

  /** The editable fields, one per number input of the form. */
  datatype ParamField = MinWordCount | MaxWordCount | GrammarWeight | VocabularyWeight | CreativityWeight {
    predicate IsWeight() {
      GrammarWeight? || VocabularyWeight? || CreativityWeight?
    }
  }

  /** A JavaScript number as the two parsers produce it: `parseInt` or `parseFloat`. */
  datatype ParamValue = IntValue(n: int) | FloatValue(x: real)

  /** The opaque JavaScript parsers. */
  datatype Parsers = Parsers(parseFloat: string -> real, parseInt: string -> int)

  /** The `name` attribute of the input that edits `f`. */
  function FieldName(f: ParamField): string {
    match f
    case MinWordCount => "min_word_count"
    case MaxWordCount => "max_word_count"
    case GrammarWeight => "grammar_weight"
    case VocabularyWeight => "vocabulary_weight"
    case CreativityWeight => "creativity_weight"
  }

  /** The current value of field `f`. */
  function Get(p: GradingParams, f: ParamField): ParamValue {
    match f
    case MinWordCount => IntValue(p.minWordCount)
    case MaxWordCount => IntValue(p.maxWordCount)
    case GrammarWeight => FloatValue(p.grammarWeight)
    case VocabularyWeight => FloatValue(p.vocabularyWeight)
    case CreativityWeight => FloatValue(p.creativityWeight)
  }

  function WeightSum(p: GradingParams): real {
    p.grammarWeight + p.vocabularyWeight + p.creativityWeight
  }

  /** Exactly the three weight fields have "weight" in their input name. */
  lemma WeightNameIffWeightField(f: ParamField)
    ensures Contains(FieldName(f), "weight") <==> f.IsWeight()
  {
    if f.IsWeight() {
      EndsWithWeight(FieldName(f));
    } else {
      NoWeightWithoutE(FieldName(f));
    }
  }

  lemma EndsWithWeight(name: string)
    requires |name| >= 6 && name[|name| - 6..] == "weight"
    ensures Contains(name, "weight")
  {
    ContainsIffOccurs(name, "weight");
    assert OccursAt(name, "weight", |name| - 6);
  }

  lemma NoWeightWithoutE(name: string)
    requires 'e' !in name
    ensures !Contains(name, "weight")
  {
    if Contains(name, "weight") {
      ContainsOnlyItsChars(name, "weight", 'e');
    }
  }

  /** The parse `handleParamChange` picks from the input's name: float when it
      contains "weight", integer otherwise. */
  function ParseByName(name: string, raw: string, parsers: Parsers): (v: ParamValue)
    ensures v.FloatValue? <==> Contains(name, "weight")
    ensures v.FloatValue? ==> v.x == parsers.parseFloat(raw)
    ensures v.IntValue? ==> v.n == parsers.parseInt(raw)
  {
    if Contains(name, "weight") then FloatValue(parsers.parseFloat(raw)) else IntValue(parsers.parseInt(raw))
  }

  /** Replace field `f` by `v`, a value of the field's own kind. */
  function With(p: GradingParams, f: ParamField, v: ParamValue): (r: GradingParams)
    requires v.FloatValue? <==> f.IsWeight()
    ensures Get(r, f) == v
    ensures forall g :: g != f ==> Get(r, g) == Get(p, g)
  {
    match f
    case MinWordCount => p.(minWordCount := v.n)
    case MaxWordCount => p.(maxWordCount := v.n)
    case GrammarWeight => p.(grammarWeight := v.x)
    case VocabularyWeight => p.(vocabularyWeight := v.x)
    case CreativityWeight => p.(creativityWeight := v.x)
  }

  /** `handleParamChange`: parse the raw input by the field's name and replace
      that one field, leaving the other four as they were. */
  function UpdateParam(p: GradingParams, f: ParamField, raw: string, parsers: Parsers): (r: GradingParams)
    ensures f.IsWeight() ==> Get(r, f) == FloatValue(parsers.parseFloat(raw))
    ensures !f.IsWeight() ==> Get(r, f) == IntValue(parsers.parseInt(raw))
    ensures forall g :: g != f ==> Get(r, g) == Get(p, g)
  {
    WeightNameIffWeightField(f);
    With(p, f, ParseByName(FieldName(f), raw, parsers))
  }
}

=== FILE: text.dfy ===
/** The string primitives the grading code leans on: Python's `str.split()`,
    `str.lower()`, integer and `.2f` formatting, and JavaScript's `includes`. */
module Text {

  /** Python's `str.isspace()`: the characters `str.split()` with no argument splits on. */
  predicate IsSpace(c: char) {
    || c == ' '
    || '\t' <= c <= '\r'
    || '\U{1c}' <= c <= '\U{1f}'
    || c == '\U{85}' || c == '\U{a0}' || c == '\U{1680}'
    || '\U{2000}' <= c <= '\U{200a}'
    || c == '\U{2028}' || c == '\U{2029}' || c == '\U{202f}' || c == '\U{205f}' || c == '\U{3000}'
  }

  /** A string with no non-space character splits into no words. */
  predicate Blank(s: string) {
    forall i :: 0 <= i < |s| ==> IsSpace(s[i])
  }

  /** Two strings of the same length with spaces at exactly the same positions. */
  predicate SameSpacing(s: string, t: string) {
    |s| == |t| && forall i :: 0 <= i < |s| ==> IsSpace(s[i]) == IsSpace(t[i])
  }

  /** `str.lower()` on the ASCII letters; every other character is kept. */
  function LowerChar(c: char): (d: char)
    ensures IsSpace(d) == IsSpace(c)
  {
    if 'A' <= c <= 'Z' then (c as int + 32) as char else c
  }

  function Lower(s: string): (t: string)
    ensures |t| == |s|
    ensures forall i :: 0 <= i < |s| ==> t[i] == LowerChar(s[i])
  {
    seq(|s|, i requires 0 <= i < |s| => LowerChar(s[i]))
  }

  /** Number of leading whitespace characters. */
  function LeadingSpaces(s: string): (n: nat)
    ensures n <= |s|
    ensures forall i :: 0 <= i < n ==> IsSpace(s[i])
    ensures n < |s| ==> !IsSpace(s[n])
  {
    if s == [] || !IsSpace(s[0]) then 0 else 1 + LeadingSpaces(s[1..])
  }

  /** Number of leading non-whitespace characters: the length of the first word. */
  function WordLength(s: string): (n: nat)
    ensures n <= |s|
    ensures forall i :: 0 <= i < n ==> !IsSpace(s[i])
    ensures n < |s| ==> IsSpace(s[n])
  {
    if s == [] || IsSpace(s[0]) then 0 else 1 + WordLength(s[1..])
  }

  /** A non-empty run of non-whitespace characters. */
  predicate IsWord(w: string) {
    |w| > 0 && forall i :: 0 <= i < |w| ==> !IsSpace(w[i])
  }

  /** Python's `s.split()`: the maximal runs of non-whitespace characters, in order. */
  function Words(s: string): (ws: seq<string>)
    ensures forall w :: w in ws ==> IsWord(w)
    ensures |ws| == 0 <==> Blank(s)
    decreases |s|
  {
    var k := LeadingSpaces(s);
    if k == |s| then []
    else
      var t := s[k..];
      var n := WordLength(t);
      assert IsWord(t[..n]);
      [t[..n]] + Words(t[n..])
  }

  function WordCount(s: string): nat {
    |Words(s)|
  }

  lemma {:induction false} LeadingSpacesAfterBlank(a: string, b: string)
    requires Blank(a)
    ensures LeadingSpaces(a + b) == |a| + LeadingSpaces(b)
    decreases |a|
  {
    if a == [] {
      assert a + b == b;
    } else {
      assert (a + b)[0] == a[0] && IsSpace(a[0]);
      assert (a + b)[1..] == a[1..] + b;
      LeadingSpacesAfterBlank(a[1..], b);
    }
  }

  lemma {:induction false} LeadingSpacesBeforeWord(a: string, b: string)
    requires LeadingSpaces(a) < |a|
    ensures LeadingSpaces(a + b) == LeadingSpaces(a)
    decreases |a|
  {
    if IsSpace(a[0]) {
      assert (a + b)[1..] == a[1..] + b;
      LeadingSpacesBeforeWord(a[1..], b);
    }
  }

  lemma {:induction false} WordLengthAppend(t: string, b: string)
    requires WordLength(t) < |t| || (b != [] && IsSpace(b[0]))
    ensures WordLength(t + b) == WordLength(t)
    decreases |t|
  {
    if t != [] && !IsSpace(t[0]) {
      assert (t + b)[1..] == t[1..] + b;
      WordLengthAppend(t[1..], b);
    }
  }

  lemma BlankConcat(a: string, b: string)
    requires Blank(a) && Blank(b)
    ensures Blank(a + b)
  {
  }

  lemma DropPastPrefix(a: string, b: string, k: nat)
    requires k <= |b|
    ensures (a + b)[|a| + k..] == b[k..]
  {
  }

  /** Whitespace in front of a text adds no words. */
  lemma {:induction false} WordsAfterBlank(a: string, b: string)
    requires Blank(a)
    ensures Words(a + b) == Words(b)
  {
    LeadingSpacesAfterBlank(a, b);
    var k := LeadingSpaces(b);
    if k == |b| {
      BlankConcat(a, b);
    } else {
      var t := b[k..];
      var n := WordLength(t);
      DropPastPrefix(a, b, k);
      WordsUnfold(b, k, t, n);
      WordsUnfold(a + b, |a| + k, t, n);
    }
  }

  /** A single run of non-whitespace characters is one word. */
  lemma WordsOfWord(w: string)
    requires IsWord(w)
    ensures Words(w) == [w]
  {
    assert LeadingSpaces(w) == 0;
    assert WordLength(w) == |w|;
    assert w[..|w|] == w && w[|w|..] == [];
  }

  /** Concatenation is associative; stated for any element type so that it is
      proved without comparing the elements themselves. */
  lemma ConcatAssoc<T>(x: seq<T>, y: seq<T>, z: seq<T>)
    ensures x + (y + z) == (x + y) + z
  {
  }

  lemma DropAppend(a: string, rest: string, k: nat)
    requires k <= |a|
    ensures (a + rest)[k..] == a[k..] + rest
  {
  }

  lemma TakeDropAppend(t: string, rest: string, n: nat)
    requires n <= |t|
    ensures (t + rest)[..n] == t[..n]
    ensures (t + rest)[n..] == t[n..] + rest
  {
  }

  /** One step of `split()`: after the leading whitespace `k`, the first word is
      the `n` characters up to the next whitespace. */
  lemma WordsUnfold(s: string, k: nat, t: string, n: nat)
    requires k == LeadingSpaces(s) < |s| && t == s[k..] && n == WordLength(t)
    ensures 0 < n && Words(s) == [t[..n]] + Words(t[n..])
  {
    assert !IsSpace(t[0]);
  }

  /** A text that starts a word keeps that first word when whitespace and more text follow. */
  lemma WordsFirstWordKept(a: string, rest: string, k: nat, t: string, n: nat)
    requires k == LeadingSpaces(a) < |a| && t == a[k..] && n == WordLength(t)
    requires rest != [] && IsSpace(rest[0])
    ensures 0 < n
    ensures Words(a) == [t[..n]] + Words(t[n..])
    ensures Words(a + rest) == [t[..n]] + Words(t[n..] + rest)
  {
    WordsUnfold(a, k, t, n);
    LeadingSpacesBeforeWord(a, rest);
    DropAppend(a, rest, k);
    WordLengthAppend(t, rest);
    WordsUnfold(a + rest, k, t + rest, n);
    TakeDropAppend(t, rest, n);
  }

  /** `split()` cuts at every whitespace character: the words of `a`, a whitespace
      character, then `b` are the words of `a` followed by the words of `b`. With
      `WordsOfWord` and the blank case this determines the result on every text. */
  lemma {:induction false} WordsSplitAtSpace(a: string, c: char, b: string)
    requires IsSpace(c)
    ensures Words(a + [c] + b) == Words(a) + Words(b)
    decreases |a|
  {
    var k := LeadingSpaces(a);
    if k == |a| {
      assert Blank(a + [c]);
      WordsAfterBlank(a + [c], b);
      assert Words(a) == [];
    } else {
      var t := a[k..];
      var n := WordLength(t);
      assert n > 0 by {
        assert !IsSpace(t[0]);
      }
      WordsSplitAtSpace(t[n..], c, b);
      ConcatAssoc(t[n..], [c], b);
      ConcatAssoc(a, [c], b);
      WordsFirstWordKept(a, [c] + b, k, t, n);
      ConcatAssoc([t[..n]], Words(t[n..]), Words(b));
    }
  }

  lemma {:induction false} SameSpacingLeading(s: string, t: string)
    requires SameSpacing(s, t)
    ensures LeadingSpaces(s) == LeadingSpaces(t)
    ensures WordLength(s) == WordLength(t)
    decreases |s|
  {
    if s != [] {
      SameSpacingLeading(s[1..], t[1..]);
    }
  }

  /** The number of words depends only on where the whitespace is. */
  lemma {:induction false} SameSpacingSameWordCount(s: string, t: string)
    requires SameSpacing(s, t)
    ensures WordCount(s) == WordCount(t)
    decreases |s|
  {
    SameSpacingLeading(s, t);
    var k := LeadingSpaces(s);
    if k < |s| {
      var s', t' := s[k..], t[k..];
      SameSpacingLeading(s', t');
      var n := WordLength(s');
      SameSpacingSameWordCount(s'[n..], t'[n..]);
    }
  }

  /** Lower-casing never changes how many words a text splits into. */
  lemma {:induction false} LowerKeepsWordCount(s: string)
    ensures WordCount(Lower(s)) == WordCount(s)
  {
    SameSpacingSameWordCount(Lower(s), s);
  }

  /** `s` begins with `prefix`. */
  predicate StartsWith(s: string, prefix: string) {
    |prefix| <= |s| && s[..|prefix|] == prefix
  }

  /** JavaScript's `String.prototype.includes`: `sub` occurs somewhere in `s`. */
  predicate Contains(s: string, sub: string)
    decreases |s|
  {
    StartsWith(s, sub) || (|s| > 0 && Contains(s[1..], sub))
  }

  /** `sub` occurs in `s` starting at index `i`. */
  predicate OccursAt(s: string, sub: string, i: int) {
    0 <= i <= |s| - |sub| && s[i..i + |sub|] == sub
  }

  /** `Contains` agrees with the positional reading of "occurs in". */
  lemma {:induction false} ContainsIffOccurs(s: string, sub: string)
    ensures Contains(s, sub) <==> exists i :: OccursAt(s, sub, i)
    decreases |s|
  {
    if StartsWith(s, sub) {
      assert OccursAt(s, sub, 0);
    }
    if |s| > 0 {
      ContainsIffOccurs(s[1..], sub);
      if Contains(s[1..], sub) {
        var i :| OccursAt(s[1..], sub, i);
        assert s[i + 1..i + 1 + |sub|] == s[1..][i..i + |sub|];
        assert OccursAt(s, sub, i + 1);
      }
      if exists i :: OccursAt(s, sub, i) {
        var i :| OccursAt(s, sub, i);
        if i > 0 {
          assert s[1..][i - 1..i - 1 + |sub|] == s[i..i + |sub|];
          assert OccursAt(s[1..], sub, i - 1);
        }
      }
    } else {
      if exists i :: OccursAt(s, sub, i) {
        var i :| OccursAt(s, sub, i);
        assert i == 0;
      }
    }
  }

  /** Every character of an occurring substring is a character of the text. */
  lemma {:induction false} ContainsOnlyItsChars(s: string, sub: string, c: char)
    requires Contains(s, sub) && c in sub
    ensures c in s
    decreases |s|
  {
    if StartsWith(s, sub) {
      var j :| 0 <= j < |sub| && sub[j] == c;
      assert s[j] == s[..|sub|][j];
    } else {
      ContainsOnlyItsChars(s[1..], sub, c);
      var j :| 0 <= j < |s[1..]| && s[1..][j] == c;
      assert s[j + 1] == c;
    }
  }

  function DigitChar(d: nat): (c: char)
    requires d < 10
    ensures '0' <= c <= '9'
    ensures DigitValue(c) == d
  {
    "0123456789"[d]
  }

  /** The number a decimal digit character stands for. */
  function DigitValue(c: char): int {
    c as int - '0' as int
  }

  /** The number a string of decimal digits stands for, most significant digit first. */
  function DecimalValue(s: string): int
    decreases |s|
  {
    if s == [] then 0 else 10 * DecimalValue(s[..|s| - 1]) + DigitValue(s[|s| - 1])
  }

  /** Decimal rendering of a natural number, as Python's `str(n)`. */
  function NatToString(n: nat): (s: string)
    ensures |s| > 0
    ensures forall c :: c in s ==> '0' <= c <= '9'
  {
    if n < 10 then [DigitChar(n)] else NatToString(n / 10) + [DigitChar(n % 10)]
  }

  /** Reading the rendering back as a decimal number gives the number rendered. */
  lemma {:induction false} NatToStringValue(n: nat)
    ensures DecimalValue(NatToString(n)) == n
  {
    var d := DigitChar(n % 10);
    if n < 10 {
      assert NatToString(n)[..0] == [];
    } else {
      NatToStringValue(n / 10);
      var s := NatToString(n);
      assert s[..|s| - 1] == NatToString(n / 10);
    }
  }

  /** Decimal rendering of an integer, with a leading `-` when negative. */
  function IntToString(i: int): string {
    if i < 0 then "-" + NatToString(-i) else NatToString(i)
  }

  /** The integer nearest to `x`, ties going to the even neighbour. */
  function RoundHalfEven(x: real): (n: int)
    ensures x - 0.5 <= n as real <= x + 0.5
    ensures x - 0.5 == n as real || x + 0.5 == n as real ==> n % 2 == 0
  {
    var f := x.Floor;
    var d := x - f as real;
    if d < 0.5 then f
    else if d > 0.5 then f + 1
    else if f % 2 == 0 then f
    else f + 1
  }

  /** Python's `format(x, ".2f")` on the exact value `x`: sign, integer part, two decimals. */
  function Fixed2(x: real): (s: string)
    ensures |s| >= 4 && s[|s| - 3] == '.'
    ensures '0' <= s[|s| - 2] <= '9' && '0' <= s[|s| - 1] <= '9'
  {
    var neg := x < 0.0;
    var cents := RoundHalfEven((if neg then -x else x) * 100.0);
    assert cents >= 0;
    var c := cents as nat;
    (if neg then "-" else "") + NatToString(c / 100) + "." + [DigitChar(c % 100 / 10), DigitChar(c % 10)]
  }
}

=== FILE: wire.dfy ===
/** The JSON body the grading endpoint returns, as the client reads it. */
module Wire {
  import opened Wrappers
  import opened Grading

  /** A JSON object member: missing, explicitly `null`, or holding a value. */
  datatype Json<+T> = Absent | Null | Present(value: T)

  /** One element of `detailed_errors`: `{type, original, corrected}`. */
  datatype ErrorEntry = ErrorEntry(kind: string, original: string, corrected: string)

  /** `response.data`: the fields the result view reads. */
  datatype GradingResult = GradingResult(
    score: real,
    grammarScore: Json<real>,
    vocabularyScore: Json<real>,
    creativityScore: Json<real>,
    errorRate: real,
    totalWords: int,
    feedback: seq<string>,
    originalEssay: string,
    correctedEssay: string,
    detailedErrors: Json<seq<ErrorEntry>>)

  function KindName(k: ErrorKind): string {
    match k
    case Spelling => "Spelling"
    case Grammar => "Grammar"
    case Punctuation => "Punctuation"
  }

  /** Reading a `type` string back; distinct kinds have distinct names. */
  function ParseKind(name: string): Option<ErrorKind> {
    if name == "Spelling" then Some(Spelling)
    else if name == "Grammar" then Some(Grammar)
    else if name == "Punctuation" then Some(Punctuation)
    else None
  }

  lemma KindNameRoundTrip(k: ErrorKind)
    ensures ParseKind(KindName(k)) == Some(k)
  {
  }

  /** Python `None` serialises as `null`; a present score as its value. */
  function EncodeScore(x: Option<real>): (j: Json<real>)
    ensures !j.Absent?
    ensures j.Null? <==> x.None?
    ensures x.Some? ==> j.Present? && j.value == x.value
  {
    match x
    case None => Null
    case Some(v) => Present(v)
  }

  function EncodeError(e: DetailedError): (entry: ErrorEntry)
    ensures ParseKind(entry.kind) == Some(e.kind)
    ensures entry.original == e.original && entry.corrected == e.corrected
  {
    KindNameRoundTrip(e.kind);
    ErrorEntry(KindName(e.kind), e.original, e.corrected)
  }

  /** The serialised report: every key present, `None` as `null`, feedback as text. */
  function Encode(rep: GradeReport): (r: GradingResult)
    ensures r.score == rep.score && r.errorRate == rep.errorRate && r.totalWords == rep.totalWords
    ensures r.grammarScore.Null? <==> rep.grammarScore.None?
    ensures r.vocabularyScore.Null? <==> rep.vocabularyScore.None?
    ensures r.creativityScore.Null? <==> rep.creativityScore.None?
    ensures !r.grammarScore.Absent? && !r.vocabularyScore.Absent? && !r.creativityScore.Absent?
    ensures |r.feedback| == |rep.feedback|
    ensures forall i :: 0 <= i < |rep.feedback| ==> r.feedback[i] == Message(rep.feedback[i])
    ensures r.detailedErrors.Present? && |r.detailedErrors.value| == |rep.detailedErrors|
    ensures forall i :: 0 <= i < |rep.detailedErrors| ==>
      && ParseKind(r.detailedErrors.value[i].kind) == Some(rep.detailedErrors[i].kind)
      && r.detailedErrors.value[i].original == rep.detailedErrors[i].original
      && r.detailedErrors.value[i].corrected == rep.detailedErrors[i].corrected
    ensures r.originalEssay == rep.originalEssay && r.correctedEssay == rep.correctedEssay
  {
    GradingResult(
      score := rep.score,
      grammarScore := EncodeScore(rep.grammarScore),
      vocabularyScore := EncodeScore(rep.vocabularyScore),
      creativityScore := EncodeScore(rep.creativityScore),
      errorRate := rep.errorRate,
      totalWords := rep.totalWords,
      feedback := seq(|rep.feedback|, i requires 0 <= i < |rep.feedback| => Message(rep.feedback[i])),
      originalEssay := rep.originalEssay,
      correctedEssay := rep.correctedEssay,
      detailedErrors := Present(seq(|rep.detailedErrors|, i requires 0 <= i < |rep.detailedErrors| => EncodeError(rep.detailedErrors[i]))))
  }
}

=== FILE: wrappers.dfy ===
/** Optional values and results that may carry an error, shared by the client and the server model. */
module Wrappers {

  /** A value that may be missing: Python's `None`, JavaScript's `null`. */
  datatype Option<+T> = None | Some(value: T)

  /** The outcome of a computation that can raise. */
  datatype Result<+T, +E> = Success(value: T) | Failure(error: E)
}
